=== FILE: README.md ===
# OAuth2 popup login widget — a Dafny model

The widget `dfcc.OAuth2` (file `OAuth2.js`) starts the authorization-code grant of RFC 6749
in a browser popup. `login` builds the authorization request of section 4.1.1 (client id,
redirect URI, response type, and the session cookie as `state`, then any extra static
parameters), opens it, and polls the popup on an interval timer. While the popup shows the
provider's pages, reading its URL throws a cross-origin error, which the timer swallows. The
first readable URL that contains the redirect address stops the timer. That URL is then
scanned with `queryValue` for the error code, error description, code, returned state and
expiry (the redirect and error responses of sections 4.1.2 and 4.1.2.1). The outcome is
classified as a provider error, a CSRF mismatch (section 10.12) or a success, in that order.
The widget writes its result properties as one group and raises `LoginFail` or `LoginDone`.
`logout` does the same with the logout address, and on a match it records the URL, clears the
code and the logged-in flag, and raises `LogoutDone`.

The model is functional:

- `jsstrings.dfy` (module `JsStrings`): `indexOf(pat, from)` and `substr(start, len)` as the
  widget uses them.
- `query.dfy` (module `QueryParser`): `queryValue`, branch for branch. Its meaning is stated
  against an independent description: the first occurrence of `name=` and the first `&` or `#`
  from there.
- `config.dfy` (module `Config`): the configuration as an immutable record.
- `request.dfy` (module `RequestUrl`): the authorization URL (including the loop that appends
  the extra parameters) and the logout URL, related to an ordinary `&`-joined query string and
  read back with `queryValue`.
- `outcome.dfy` (module `Outcome`): response extraction, classification, and the field group
  each outcome writes together with its notification.
- `poller.dfy` (module `Poller`): the interval callback as a `Polling | Stopped` machine with
  `Tick(probe)`, where a probe is `None` when reading the popup's URL throws. The machine is
  generic in the match handler; the login and logout handlers are instances. `Run` folds a
  sequence of probes.

Things the proofs make explicit:

- `queryValue` matches by first textual occurrence, so a key ending in the name shadows it
  (`ba=1` answers a query for `a`).
- The delimiter search starts at the name, not after the `=`. A name that holds `&` or `#`
  therefore always reads back as empty.
- Nothing is percent-encoded, so the authorization URL itself contains the redirect address
  that the poller waits for: a probe that could read the authorization URL would match. The
  flow relies on the provider's page being on another origin; nothing here models probe
  timing or what the popup shows before the provider's page loads.
- A login leaves every result field written, so the record afterwards depends only on the
  matched URL and the nonce. A logout keeps the previous error fields and expiry.

## Model

| member | source | states |
|---|---|---|
| JsStrings.IndexOf | OAuth2.js:183 | `indexOf` returns -1 only when the pattern occurs nowhere at or after the start index, and otherwise the first such occurrence |
| JsStrings.IndexOfChar | OAuth2.js:190-191 | the one-character `indexOf` returns -1 only when the character is absent from the start index on, and otherwise its first position there |
| JsStrings.IndexOfOneChar | OAuth2.js:190-191 | searching for a one-character string agrees with searching for the character |
| JsStrings.Substr | OAuth2.js:194-208 | `substr` yields at most `len` characters from `start`, none for a non-positive length, and always a slice of the string |
| QueryParser.QueryValue | OAuth2.js:180-187 | when `name=` occurs nowhere in the URL the value is empty |
| QueryParser.ValueFrom | OAuth2.js:189-211 | the branch on the `&` and `#` positions yields a delimiter-free slice starting at the value position, and a non-empty one runs up to a delimiter or the end; its exact cut is given by ValueFromEndsAtDelimiter |
| QueryParser.QueryValueFound | OAuth2.js:183-213 | with `n` the first `name=` and `e` the first `&` or `#` at or after `n` (or the end), the value is the text from just after that `=` up to `e`, or empty if `e` falls inside the name |
| QueryParser.ValueFromEndsAtDelimiter | OAuth2.js:190-209 | the four-way branch on the `&` and `#` positions cuts the value at the first delimiter at or after the name, or at the end |
| QueryParser.QueryValueIsRun | OAuth2.js:183-209 | for a name without `&`/`#`, the value starts right after the first `name=`, is a contiguous slice of the URL free of `&` and `#`, and is followed by a delimiter or the end |
| QueryParser.DelimiterInNameGivesEmpty | OAuth2.js:189-209 | a name holding `&` or `#` always reads back as empty, because the delimiter search starts at the name |
| QueryParser.ReadBack | OAuth2.js:183-213 | a parameter written as `name=value` followed by a delimiter or the end reads back as exactly `value`, if `name=` does not occur earlier |
| QueryParser.ShadowedByLongerKey | OAuth2.js:183 | first textual match wins: `?ba=1&a=2` read for `a` gives `1` |
| QueryParser.HashEndsValue | OAuth2.js:190-209 | a `#` before the next `&` ends the value (`?a=1#frag&z=9` gives `1`), as does an `&` |
| RequestUrl.ExtraQuery | OAuth2.js:82-84 | the accumulation loop yields nothing for no extras, else `&` followed by the extras `&`-joined in configured order |
| RequestUrl.BuildAuthorizationUrl | OAuth2.js:82-89 | the authorization URL is the endpoint, one `?`, and the `&`-joined pairs client id, redirect URI, response type, state=nonce, then the extras in order, unencoded |
| RequestUrl.AuthorizationUrlAroundState | OAuth2.js:86-89 | the state pair sits between the three fixed pairs and the extras |
| RequestUrl.StateReadBack | OAuth2.js:86-89 | reading the state name back from the authorization URL gives the nonce (CSRF round trip), under the delimiter and no-earlier-key conditions |
| RequestUrl.AuthorizationUrlMentionsRedirect | OAuth2.js:86-97 | the unencoded authorization URL contains the redirect address the poller searches for |
| RequestUrl.LogoutUrl | OAuth2.js:151 | the logout URL starts with the logout endpoint and `?`, and ends with the redirect address, so it contains the address the logout poller waits for; LogoutReadBack reads that address back |
| RequestUrl.LogoutReadBack | OAuth2.js:151 | the logout URL carries the redirect address under the logout redirect name, and reads back to it |
| Outcome.ReadResponse | OAuth2.js:100-109 | a redirect URL without any code parameter reads as a provider failure, since the missing code reads back empty |
| Outcome.Classify | OAuth2.js:109-127 | Success exactly when no error code, no description, a non-empty code and state equal to the nonce; CSRF mismatch exactly when only the state differs; provider errors carried verbatim |
| Outcome.DispatchLogin | OAuth2.js:107-133 | every outcome records the URL; failures clear the code, set expiry 0, logged-out, write the provider's or the fixed CSRF error fields and raise LoginFail; success sets logged-in, code, raw expiry, clears errors and raises LoginDone |
| Outcome.LoginOnMatch | OAuth2.js:99-133 | the read-classify-dispatch step records the URL and raises LoginDone or LoginFail, LoginDone exactly when the URL has no error fields, a non-empty code and the nonce as state; a failure leaves the code empty, expiry 0 and the flag cleared |
| Outcome.DispatchLogout | OAuth2.js:160-166 | logout records the URL, clears the code and the logged-in flag, leaves error fields and expiry as they were, and raises LogoutDone |
| Outcome.LoginRecordsResponse | OAuth2.js:100-133 | a reported login stores the URL's code and its raw expiry text, and clears both error fields |
| Outcome.ProviderErrorIgnoresState | OAuth2.js:109-119 | a provider failure dominates: the classification is the provider error whatever state is returned |
| Outcome.CodeRedirectOutcome | OAuth2.js:97-133 | a redirect `redirectUrl?code=C&state=S` succeeds with code `C` exactly when `S` is the nonce, and otherwise fails with error code `CSRF` |
| Outcome.ClassifyExamples | OAuth2.js:109-133 | three sample responses: a matching state gives success, a forged state gives CSRF, and an `access_denied` error gives a provider error even with a code and the matching state |
| Poller.Tick | OAuth2.js:93-144 | a stopped poller and an unreadable or non-matching probe change nothing and raise nothing; a matching probe stops polling and applies the match handler's record and single notification |
| Poller.MatchingTickRecordsUrl | OAuth2.js:97-107 | in both flows the matching tick stops the timer, records the matched URL, and raises one notification (LogoutDone for logout, LoginDone exactly when logged in for login) |
| Poller.Run | OAuth2.js:93-144 | over any probe sequence at most one notification is raised, a stopped poller stays as it is, and a raised notification leaves the poller stopped |
| Poller.RunWithoutMatch | OAuth2.js:95-142 | while no probe contains the redirect address, polling continues with the result record unchanged |
| Poller.RunDispatchesFirstMatch | OAuth2.js:97-107 | the first matching probe decides: the poller ends stopped with that URL's handler result and its single notification; later probes are ignored |
| Poller.RunNotifiesIffMatch | OAuth2.js:93-144 | a notification is raised iff some probe contained the redirect address |
| Poller.LogoutKeepsErrorFields | OAuth2.js:154-173 | a logout run that matches raises LogoutDone, clears code and flag, and keeps the previous error fields and expiry |
| Poller.LoginDoneNeedsNonce | OAuth2.js:93-144 | over any login run, LoginDone implies that the first matching URL, the one dispatched, has no error code or description, has the nonce as its returned state, and has a non-empty code equal to the stored one |

## Left out

- Browser I/O: `window.open`, `win.close`, `setInterval`/`clearInterval` and the poll interval
  are not modelled. The timer is the `Polling`/`Stopped` phase; each probe is an input.
  `close` is treated as never throwing, although in the code it runs before the field writes,
  so a throwing `close` would drop the dispatch.
- Each matching tick reads `win.document.URL` twice: once for the match test and once for the
  value it dispatches (lines 97 and 99, and 158 and 160). The model dispatches the probed URL
  itself. It takes the two reads to agree, because no script in the popup runs between them
  within one tick.
- The nonce source (`df.sys.cookie.get("dfWebApp")`) is not modelled; the nonce is an input.
- The framework machinery (`this.prop`, `obj.set`, `serverAction`, `deserializeParams`) is not
  modelled. The configuration is an immutable record, the properties are one `AuthResult`
  value, and each server action is a `Notification` tag.
- The code reads four properties under names that are never declared: `wpsRedirUrlName` (line
  87, declared as `wpsRedirectUrlName` at line 50), `wpsAuthCdName` (line 102) and
  `wpsExpiresName` (line 104), while `wpiPollInterval` is declared under the malformed name at
  line 56. In the code these evaluate to `undefined`, which is then stringified or used as the
  delay. The model takes each name as a configuration field and does not model the
  `undefined` behaviour.
- `queryValue` declares `hashloc` (line 181) but assigns and reads `hashLoc` (lines 191-208),
  and `logout` assigns the undeclared `url` (line 160). Both are implicit globals in
  non-strict JavaScript and do not change what the code computes; the model uses locals.
- Strings are sequences of Unicode characters, while JavaScript strings are sequences of UTF-16
  code units. For well-formed strings, `indexOf` and `substr` at the positions `indexOf`
  returns give the same text either way, and `document.URL` is ASCII once serialized. Strings
  holding a lone surrogate cannot be represented.
- `wpiExpiresIn` holds the integer 0 after a failure and the raw string after a success. It is
  the datatype `Zero | Raw(text)`; no number parsing is modelled.
- `psTest` (line 79) is debug state and is not modelled.
- Popup-blocked detection, abort on manual close, a timeout and a guard against overlapping
  `login` calls do not exist in the code and are not modelled.
- JsStrings.IndexOf: requires the start index to be within the string. JavaScript clamps a
  larger start, but the widget never passes one.
- RequestUrl.StateReadBack: holds only when the state name and nonce hold no `&` or `#` and
  `stateName=` does not occur earlier in the URL. Outside those conditions the code reads
  back something else.
- RequestUrl.LogoutReadBack: holds only under the same kind of conditions.
- Outcome.CodeRedirectOutcome: holds only when no error parameter occurs in the URL and the
  code and state names occur first where they are written.

=== FILE: config.dfy ===
/** The widget's configuration, fixed before a flow starts: the endpoints, the request
    parameters (each as a name and a value), the extra static parameters in their configured
    order, and the parameter names used to read the redirect back. */
module Config {

  /** One query parameter as the widget writes it: `name=value`, no encoding. */
  datatype Param = Param(name: string, value: string)

  datatype FlowConfig = FlowConfig(
    authUrl: string,          // authorization endpoint
    logoutUrl: string,        // logout endpoint
    clientIdName: string,
    clientId: string,
    redirectUrlName: string,
    redirectUrl: string,      // also the text the poller looks for in the popup's URL
    logoutRedirName: string,
    respTypeName: string,
    responseType: string,
    stateName: string,
    extras: seq<Param>,       // extra static parameters, in configured order
    errCodeName: string,
    errDescName: string,
    authCodeName: string,
    retStateName: string,
    expiresName: string
  )
}

=== FILE: jsstrings.dfy ===
/** The two JavaScript string primitives the widget's scanner is built from:
    `String.prototype.indexOf(search, fromIndex)` and `String.prototype.substr(start, length)`,
    restricted to the argument ranges the widget ever passes. Strings are `seq<char>`. */
module JsStrings {

  /** `pat` occurs in `s` starting at index `i`. */
  predicate OccursAt(s: string, pat: string, i: int)
  {
    0 <= i && i + |pat| <= |s| && s[i..i + |pat|] == pat
  }

  /** `pat` occurs somewhere in `s` (JavaScript `s.indexOf(pat) != -1`). */
  predicate Contains(s: string, pat: string)
  {
    exists i | 0 <= i <= |s| :: OccursAt(s, pat, i)
  }

  /** `i` is the first index at or after `from` where `pat` occurs in `s`. */
  predicate IsFirstOccurrenceFrom(s: string, pat: string, from: int, i: int)
  {
    from <= i && OccursAt(s, pat, i) && forall j | from <= j < i :: !OccursAt(s, pat, j)
  }

  /** `s.indexOf(pat, from)`: the first index at or after `from` where `pat` occurs, or -1.
      JavaScript clamps a `from` beyond the end; the widget never passes one. */
  function IndexOf(s: string, pat: string, from: nat): (r: int)
    requires from <= |s|
    ensures r == -1 ==> forall j :: from <= j ==> !OccursAt(s, pat, j)
    ensures r != -1 ==> IsFirstOccurrenceFrom(s, pat, from, r)
    decreases |s| - from
  {
    if from + |pat| > |s| then -1
    else if s[from..from + |pat|] == pat then
      assert OccursAt(s, pat, from);
      from
    else
      assert |pat| > 0;
      IndexOf(s, pat, from + 1)
  }

  /** `s.substr(start, len)` for `0 <= start <= |s|`: at most `len` characters from `start`,
      none when `len` is zero or negative. */
  function Substr(s: string, start: nat, len: int): (r: string)
    requires start <= |s|
    ensures |r| == if len <= 0 then 0 else if len < |s| - start then len else |s| - start
    ensures start + |r| <= |s| && r == s[start..start + |r|]
  {
    if len <= 0 then []
    else if start + len < |s| then s[start..start + len]
    else s[start..]
  }

  /** A first occurrence is unique: `indexOf` returns exactly it. */
  lemma IndexOfFindsFirst(s: string, pat: string, from: nat, i: int)
    requires from <= |s|
    requires IsFirstOccurrenceFrom(s, pat, from, i)
    ensures IndexOf(s, pat, from) == i
  {
    assert OccursAt(s, pat, i);
  }

  /** `s.indexOf(c, from)` for a one-character search string: the first index at or after
      `from` holding `c`, or -1. */
  function IndexOfChar(s: string, c: char, from: nat): (r: int)
    requires from <= |s|
    ensures r == -1 ==> forall j | from <= j < |s| :: s[j] != c
    ensures r != -1 ==> from <= r < |s| && s[r] == c && forall j | from <= j < r :: s[j] != c
    decreases |s| - from
  {
    if from == |s| then -1
    else if s[from] == c then from
    else IndexOfChar(s, c, from + 1)
  }

  /** Searching for a one-character string is searching for that character. */
  lemma {:induction false} IndexOfOneChar(s: string, c: char, from: nat)
    requires from <= |s|
    ensures IndexOf(s, [c], from) == IndexOfChar(s, c, from)
    decreases |s| - from
  {
    if from < |s| {
      assert s[from..from + 1] == [s[from]];
      IndexOfOneChar(s, c, from + 1);
    }
  }
}

=== FILE: outcome.dfy ===
/** What the widget does once the popup is back on the redirect address: read the response
    fields of sections 4.1.2 and 4.1.2.1 of RFC 6749 out of the URL, classify them (provider
    error, CSRF mismatch, success, in that order), write the result record as one group and
    raise one notification. */
module Outcome {
  import opened JsStrings
  import opened QueryParser
  import opened Config

  /** `wpiExpiresIn` holds the integer 0 after a failure and the raw, unparsed text read from
      the URL after a success. */
  datatype Expires = Zero | Raw(text: string)

  /** The widget's result properties, overwritten by each completed flow. */
  datatype AuthResult = AuthResult(
    loggedIn: bool,
    authCode: string,
    expiresIn: Expires,
    errorCode: string,
    errorDesc: string,
    redirectedTo: string
  )

  /** The server actions the widget raises. */
  datatype Notification = LoginDone | LoginFail | LogoutDone

  /** The raw fields read out of the redirect URL. */
  datatype Response = Response(errorCode: string, errorDesc: string, code: string, state: string, expires: string)

  datatype Classified =
    | ProviderError(errorCode: string, errorDesc: string)
    | CsrfMismatch
    | Success(code: string, expires: string)

  /** What one completed flow leaves behind: the new result record and the one notification. */
  datatype Dispatched = Dispatched(result: AuthResult, note: Notification)

  const CsrfCode := "CSRF"
  const CsrfDescription := "Returned state does not match passed state: possible attempted Cross Site Request Forgery attack"

  /** The provider reported an error, or gave no code. */
  predicate ProviderFailed(resp: Response)
  {
    resp.errorDesc != "" || resp.errorCode != "" || resp.code == ""
  }

  /** The five fields, each read with `queryValue` under its configured name. A redirect that
      carries no code parameter at all reads as a provider failure. */
  function ReadResponse(cfg: FlowConfig, url: string): (resp: Response)
    ensures !Contains(url, cfg.authCodeName + "=") ==> ProviderFailed(resp)
  {
    Response(QueryValue(url, cfg.errCodeName), QueryValue(url, cfg.errDescName),
             QueryValue(url, cfg.authCodeName), QueryValue(url, cfg.retStateName),
             QueryValue(url, cfg.expiresName))
  }

  /** The classification: a provider failure dominates, then the state must equal the nonce. */
  function Classify(resp: Response, nonce: string): (c: Classified)
    ensures c.Success? <==> !ProviderFailed(resp) && resp.state == nonce
    ensures c.CsrfMismatch? <==> !ProviderFailed(resp) && resp.state != nonce
    ensures c.ProviderError? ==> c.errorCode == resp.errorCode && c.errorDesc == resp.errorDesc
    ensures c.Success? ==> c.code == resp.code && c.code != "" && c.expires == resp.expires
  {
    if ProviderFailed(resp) then ProviderError(resp.errorCode, resp.errorDesc)
    else if resp.state != nonce then CsrfMismatch
    else Success(resp.code, resp.expires)
  }

  /** The field group each classification writes, and the notification it raises. */
  function DispatchLogin(url: string, c: Classified): (d: Dispatched)
    ensures d.result.redirectedTo == url
    ensures d.result.loggedIn <==> c.Success?
    ensures d.note == LoginDone <==> d.result.loggedIn
    ensures d.note in {LoginDone, LoginFail}
    ensures !c.Success? ==> d.result.authCode == "" && d.result.expiresIn == Zero
    ensures c.ProviderError? ==> d.result.errorCode == c.errorCode && d.result.errorDesc == c.errorDesc
    ensures c.CsrfMismatch? ==> d.result.errorCode == CsrfCode && d.result.errorDesc == CsrfDescription
    ensures c.Success? ==> d.result.authCode == c.code && d.result.expiresIn == Raw(c.expires)
                           && d.result.errorCode == "" && d.result.errorDesc == ""
  {
    match c
    case ProviderError(code, desc) => Dispatched(AuthResult(false, "", Zero, code, desc, url), LoginFail)
    case CsrfMismatch => Dispatched(AuthResult(false, "", Zero, CsrfCode, CsrfDescription, url), LoginFail)
    case Success(code, expires) => Dispatched(AuthResult(true, code, Raw(expires), "", "", url), LoginDone)
  }

  /** The login flow's handling of a matched redirect URL: read, classify, dispatch. It
      reports a login exactly when the URL carries no error, a non-empty code and the nonce. */
  function LoginOnMatch(cfg: FlowConfig, nonce: string, url: string): (d: Dispatched)
    ensures d.result.redirectedTo == url
    ensures d.note in {LoginDone, LoginFail}
    ensures d.note == LoginDone
            <==> QueryValue(url, cfg.errCodeName) == "" && QueryValue(url, cfg.errDescName) == ""
                 && QueryValue(url, cfg.authCodeName) != "" && QueryValue(url, cfg.retStateName) == nonce
    ensures d.note == LoginFail ==> !d.result.loggedIn && d.result.authCode == "" && d.result.expiresIn == Zero
  {
    DispatchLogin(url, Classify(ReadResponse(cfg, url), nonce))
  }

  /** The logout flow's handling of a matched redirect URL: only the address, the code and the
      logged-in flag are written; error fields and expiry keep their previous values. */
  function DispatchLogout(prior: AuthResult, url: string): (d: Dispatched)
    ensures d.note == LogoutDone
    ensures !d.result.loggedIn && d.result.authCode == "" && d.result.redirectedTo == url
    ensures d.result.errorCode == prior.errorCode && d.result.errorDesc == prior.errorDesc
    ensures d.result.expiresIn == prior.expiresIn
  {
    Dispatched(prior.(loggedIn := false, authCode := "", redirectedTo := url), LogoutDone)
  }

  /** What a reported login stores (when `LoginOnMatch` reports one; its contract gives the
      condition): the code and the raw expiry are the ones in the URL, and the error fields are
      cleared. */
  lemma LoginRecordsResponse(cfg: FlowConfig, nonce: string, url: string)
    ensures var d := LoginOnMatch(cfg, nonce, url);
            d.result.loggedIn ==>
              d.result.authCode == QueryValue(url, cfg.authCodeName)
              && d.result.expiresIn == Raw(QueryValue(url, cfg.expiresName))
              && d.result.errorCode == "" && d.result.errorDesc == ""
  {
  }

  /** A provider-reported error dominates the state check: whatever state comes back, the
      classification is the same provider error. */
  lemma ProviderErrorIgnoresState(resp: Response, nonce: string, state1: string, state2: string)
    requires ProviderFailed(resp)
    ensures Classify(resp.(state := state1), nonce) == Classify(resp.(state := state2), nonce)
    ensures Classify(resp.(state := state1), nonce) == ProviderError(resp.errorCode, resp.errorDesc)
  {
  }

  /** The redirect of section 4.1.2 of RFC 6749, end to end: when the provider sends the popup
      to `redirectUrl?code=C&state=S` with no error parameter, the login succeeds with code `C`
      exactly when `S` is the nonce, and otherwise fails as a CSRF mismatch. The names and
      values must hold no `&` or `#`, and no parameter name may occur with `=` earlier than
      where it is written. */
  lemma {:induction false} CodeRedirectOutcome(cfg: FlowConfig, nonce: string, code: string, state: string)
    requires code != ""
    requires FreeOfDelimiters(cfg.authCodeName) && FreeOfDelimiters(code)
    requires FreeOfDelimiters(cfg.retStateName) && FreeOfDelimiters(state)
    requires var url := cfg.redirectUrl + "?" + cfg.authCodeName + "=" + code + "&" + cfg.retStateName + "=" + state;
             && !Contains(url, cfg.errCodeName + "=") && !Contains(url, cfg.errDescName + "=")
             && !Contains(cfg.redirectUrl + "?" + cfg.authCodeName, cfg.authCodeName + "=")
             && !Contains(cfg.redirectUrl + "?" + cfg.authCodeName + "=" + code + "&" + cfg.retStateName,
                          cfg.retStateName + "=")
    ensures var url := cfg.redirectUrl + "?" + cfg.authCodeName + "=" + code + "&" + cfg.retStateName + "=" + state;
            var d := LoginOnMatch(cfg, nonce, url);
            (d.note == LoginDone <==> state == nonce)
            && (state == nonce ==> d.result.authCode == code && d.result.errorCode == "")
            && (state != nonce ==> d.result.authCode == "" && d.result.errorCode == CsrfCode)
  {
    var head := cfg.redirectUrl + "?";
    var afterCode := "&" + cfg.retStateName + "=" + state;
    var url := head + cfg.authCodeName + "=" + code + afterCode;
    assert url == cfg.redirectUrl + "?" + cfg.authCodeName + "=" + code + "&" + cfg.retStateName + "=" + state;
    ReadBack(head, cfg.authCodeName, code, afterCode);
    var beforeState := head + cfg.authCodeName + "=" + code + "&";
    assert url == beforeState + cfg.retStateName + "=" + state + "";
    ReadBack(beforeState, cfg.retStateName, state, "");
  }

  /** Three sample responses, one per classification: a matching state, a forged state, and an
      `access_denied` error, which wins even though a code and the right state came back. */
  lemma ClassifyExamples()
    ensures Classify(Response("", "", "ABC123", "n1", ""), "n1") == Success("ABC123", "")
    ensures Classify(Response("", "", "ABC123", "forged", ""), "n1") == CsrfMismatch
    ensures Classify(Response("access_denied", "", "ABC123", "n1", ""), "n1") == ProviderError("access_denied", "")
  {
  }
}

=== FILE: poller.dfy ===
/** The widget's interval callback as a state machine. Each tick probes the popup's URL; a
    probe that throws (the popup still shows the provider's origin) is swallowed, a URL that does
    not contain the redirect address is ignored, and the first URL that does contain it stops
    the timer and is dispatched, once. The timer, the popup and the browser's access check are
    outside the model: a probe is `None` when reading the URL fails and `Some(url)` otherwise. */
module Poller {
  import opened JsStrings
  import opened Config
  import opened Outcome
  import opened QueryParser

  datatype Option<T> = None | Some(value: T)

  /** `Polling` while the interval timer is armed; `Stopped` once it has been cleared. */
  datatype Phase = Polling | Stopped

  /** What the timer runs on a match: given the result record so far and the matched URL, the
      new record and the notification to raise. */
  type Handler = (AuthResult, string) -> Dispatched

  datatype PollState = PollState(phase: Phase, result: AuthResult)

  /** One tick's effect: the next state and the notification raised, if any. */
  datatype Step = Step(state: PollState, note: Option<Notification>)

  /** A probe that read a URL containing the redirect address (`indexOf != -1`). */
  predicate IsHome(redirect: string, probe: Option<string>)
  {
    probe.Some? && Contains(probe.value, redirect)
  }

  /** The login timer's handler: read, classify and dispatch the matched URL. */
  function LoginHandler(cfg: FlowConfig, nonce: string): Handler
  {
    (prior: AuthResult, url: string) => LoginOnMatch(cfg, nonce, url)
  }

  /** The logout timer's handler. */
  function LogoutHandler(): Handler
  {
    (prior: AuthResult, url: string) => DispatchLogout(prior, url)
  }

  /** One firing of the interval callback. */
  function Tick(redirect: string, onMatch: Handler, s: PollState, probe: Option<string>): (t: Step)
    ensures s.phase.Stopped? ==> t == Step(s, None)
    ensures s.phase.Polling? && !IsHome(redirect, probe) ==> t == Step(s, None)
    ensures s.phase.Polling? && IsHome(redirect, probe) ==>
              var d := onMatch(s.result, probe.value);
              t.state == PollState(Stopped, d.result) && t.note == Some(d.note)
    ensures t.note.Some? <==> s.phase.Polling? && IsHome(redirect, probe)
  {
    if s.phase.Stopped? || !IsHome(redirect, probe) then Step(s, None)
    else
      var d := onMatch(s.result, probe.value);
      Step(PollState(Stopped, d.result), Some(d.note))
  }

  function NoteSeq(note: Option<Notification>): seq<Notification>
  {
    if note.Some? then [note.value] else []
  }

  /** A run of ticks over successive probes: the final state and every notification raised,
      in order. At most one notification is ever raised, and a stopped poller stays put. */
  function Run(redirect: string, onMatch: Handler, s: PollState, probes: seq<Option<string>>): (r: (PollState, seq<Notification>))
    ensures |r.1| <= 1
    ensures s.phase.Stopped? ==> r == (s, [])
    ensures |r.1| == 1 ==> r.0.phase.Stopped?
    decreases |probes|
  {
    if |probes| == 0 then (s, [])
    else
      var t := Tick(redirect, onMatch, s, probes[0]);
      var rest := Run(redirect, onMatch, t.state, probes[1..]);
      (rest.0, NoteSeq(t.note) + rest.1)
  }

  /** No probe came home: polling continues and the result record is untouched. */
  lemma {:induction false} RunWithoutMatch(redirect: string, onMatch: Handler, s: PollState, probes: seq<Option<string>>)
    requires s.phase.Polling?
    requires forall k | 0 <= k < |probes| :: !IsHome(redirect, probes[k])
    ensures Run(redirect, onMatch, s, probes) == (s, [])
    decreases |probes|
  {
    if |probes| > 0 {
      assert !IsHome(redirect, probes[0]);
      RunWithoutMatch(redirect, onMatch, s, probes[1..]);
    }
  }

  /** The first probe that comes home decides the flow: the poller ends `Stopped`, the result
      record is what that URL's handler wrote, and its notification is the only one raised;
      every later probe is ignored. */
  lemma {:induction false} RunDispatchesFirstMatch(redirect: string, onMatch: Handler, s: PollState,
                                                   probes: seq<Option<string>>, k: nat)
    requires s.phase.Polling?
    requires k < |probes| && IsHome(redirect, probes[k])
    requires forall j | 0 <= j < k :: !IsHome(redirect, probes[j])
    ensures var d := onMatch(s.result, probes[k].value);
            Run(redirect, onMatch, s, probes) == (PollState(Stopped, d.result), [d.note])
    decreases k
  {
    var d := onMatch(s.result, probes[k].value);
    if k > 0 {
      assert !IsHome(redirect, probes[0]);
      assert Tick(redirect, onMatch, s, probes[0]) == Step(s, None);
      assert probes[1..][k - 1] == probes[k];
      RunDispatchesFirstMatch(redirect, onMatch, s, probes[1..], k - 1);
      var rest := Run(redirect, onMatch, s, probes[1..]);
      assert rest == (PollState(Stopped, d.result), [d.note]);
      assert Run(redirect, onMatch, s, probes) == (rest.0, [] + rest.1);
      assert [] + rest.1 == [d.note];
    } else {
      var t := Tick(redirect, onMatch, s, probes[0]);
      assert t == Step(PollState(Stopped, d.result), Some(d.note));
      assert Run(redirect, onMatch, t.state, probes[1..]) == (t.state, []);
      assert NoteSeq(t.note) + [] == [d.note];
      assert Run(redirect, onMatch, s, probes) == (t.state, NoteSeq(t.note) + []);
    }
  }

  /** Exactly one notification is raised over a run from `Polling` iff some probe came home. */
  lemma {:induction false} RunNotifiesIffMatch(redirect: string, onMatch: Handler, s: PollState, probes: seq<Option<string>>)
    requires s.phase.Polling?
    ensures |Run(redirect, onMatch, s, probes).1| == 1 <==> exists k | 0 <= k < |probes| :: IsHome(redirect, probes[k])
    decreases |probes|
  {
    if exists k | 0 <= k < |probes| :: IsHome(redirect, probes[k]) {
      var k := FirstHome(redirect, probes);
      RunDispatchesFirstMatch(redirect, onMatch, s, probes, k);
    } else {
      RunWithoutMatch(redirect, onMatch, s, probes);
    }
  }

  /** The index of the first probe that came home. */
  function FirstHome(redirect: string, probes: seq<Option<string>>): (k: nat)
    requires exists k | 0 <= k < |probes| :: IsHome(redirect, probes[k])
    ensures k < |probes| && IsHome(redirect, probes[k])
    ensures forall j | 0 <= j < k :: !IsHome(redirect, probes[j])
    decreases |probes|
  {
    if IsHome(redirect, probes[0]) then 0
    else
      assert exists k | 0 <= k < |probes[1..]| :: IsHome(redirect, probes[1..][k]) by {
        var k :| 0 <= k < |probes| && IsHome(redirect, probes[k]);
        assert probes[1..][k - 1] == probes[k];
      }
      1 + FirstHome(redirect, probes[1..])
  }

  /** The tick that comes home stops the timer and records the matched URL, in both flows. */
  lemma MatchingTickRecordsUrl(cfg: FlowConfig, nonce: string, s: PollState, url: string)
    requires s.phase.Polling? && Contains(url, cfg.redirectUrl)
    ensures var t := Tick(cfg.redirectUrl, LoginHandler(cfg, nonce), s, Some(url));
            t.state.phase.Stopped? && t.state.result.redirectedTo == url && t.note.Some?
            && (t.note == Some(LoginDone) <==> t.state.result.loggedIn)
    ensures var t := Tick(cfg.redirectUrl, LogoutHandler(), s, Some(url));
            t.state.phase.Stopped? && t.state.result.redirectedTo == url && t.note == Some(LogoutDone)
  {
    assert LoginHandler(cfg, nonce)(s.result, url) == LoginOnMatch(cfg, nonce, url);
    assert LogoutHandler()(s.result, url) == DispatchLogout(s.result, url);
  }

  /** A logout run that comes home leaves the error fields and the expiry of the previous
      record untouched, and raises `LogoutDone`. */
  lemma LogoutKeepsErrorFields(redirect: string, s: PollState, probes: seq<Option<string>>, k: nat)
    requires s.phase.Polling?
    requires k < |probes| && IsHome(redirect, probes[k])
    requires forall j | 0 <= j < k :: !IsHome(redirect, probes[j])
    ensures var r := Run(redirect, LogoutHandler(), s, probes);
            r.1 == [LogoutDone] && !r.0.result.loggedIn && r.0.result.authCode == ""
            && r.0.result.errorCode == s.result.errorCode && r.0.result.errorDesc == s.result.errorDesc
            && r.0.result.expiresIn == s.result.expiresIn
  {
    RunDispatchesFirstMatch(redirect, LogoutHandler(), s, probes, k);
    assert LogoutHandler()(s.result, probes[k].value) == DispatchLogout(s.result, probes[k].value);
  }

  /** Over any run of a login flow, `LoginDone` is raised only if the first URL that came home
      carried no error, a non-empty code and the flow's own nonce as its state; the code then
      recorded is that URL's code. */
  lemma {:induction false} LoginDoneNeedsNonce(cfg: FlowConfig, nonce: string, s: PollState, probes: seq<Option<string>>)
    requires s.phase.Polling?
    ensures var r := Run(cfg.redirectUrl, LoginHandler(cfg, nonce), s, probes);
            r.1 == [LoginDone] ==>
              exists k | 0 <= k < |probes| ::
                IsHome(cfg.redirectUrl, probes[k])
                && (forall j | 0 <= j < k :: !IsHome(cfg.redirectUrl, probes[j]))
                && QueryValue(probes[k].value, cfg.errCodeName) == ""
                && QueryValue(probes[k].value, cfg.errDescName) == ""
                && QueryValue(probes[k].value, cfg.retStateName) == nonce
                && QueryValue(probes[k].value, cfg.authCodeName) == r.0.result.authCode != ""
  {
    var h := LoginHandler(cfg, nonce);
    if exists k | 0 <= k < |probes| :: IsHome(cfg.redirectUrl, probes[k]) {
      var k := FirstHome(cfg.redirectUrl, probes);
      RunDispatchesFirstMatch(cfg.redirectUrl, h, s, probes, k);
      assert h(s.result, probes[k].value) == LoginOnMatch(cfg, nonce, probes[k].value);
      LoginRecordsResponse(cfg, nonce, probes[k].value);
    } else {
      RunWithoutMatch(cfg.redirectUrl, h, s, probes);
    }
  }
}

=== FILE: query.dfy ===
/** The widget's response scanner `queryValue(url, name)`: the raw text following the first
    `name=` in a URL, up to the first `&` or `#` found from that occurrence on. No percent
    decoding is done. */
module QueryParser {
  import opened JsStrings

  /** The two characters that end a value: `&` between parameters, `#` before a fragment. */
  predicate IsDelimiter(c: char)
  {
    c == '&' || c == '#'
  }

  predicate FreeOfDelimiters(s: string)
  {
    forall i | 0 <= i < |s| :: !IsDelimiter(s[i])
  }

  /** `e` is where a value scanned from `from` stops: the first delimiter at or after `from`,
      or the end of `s` when there is none. */
  predicate ValueEndsAt(s: string, from: int, e: int)
  {
    0 <= from <= e <= |s|
    && (e == |s| || IsDelimiter(s[e]))
    && forall j | from <= j < e :: !IsDelimiter(s[j])
  }

  /** The widget's `queryValue`, branch for branch. */
  function QueryValue(url: string, name: string): (r: string)
    ensures !Contains(url, name + "=") ==> r == ""
    ensures |r| <= |url|
  {
    var nameLoc := IndexOf(url, name + "=", 0);
    if nameLoc == -1 then ""
    else ValueFrom(url, nameLoc, nameLoc + |name| + 1)
  }

  /** The second half of `queryValue`: the delimiters are searched for from `nameLoc` and the
      value is cut from `valLoc` to the earlier of them, or to the end. Whatever the branch, the
      value is a delimiter-free slice starting at `valLoc`, and a non-empty one runs up to a
      delimiter or the end. */
  function ValueFrom(url: string, nameLoc: nat, valLoc: nat): (v: string)
    requires nameLoc <= valLoc <= |url|
    ensures valLoc + |v| <= |url| && v == url[valLoc..valLoc + |v|]
    ensures FreeOfDelimiters(v)
    ensures v != "" ==> ValueEndsAt(url, valLoc, valLoc + |v|)
  {
    var ampLoc := IndexOfChar(url, '&', nameLoc);
    var hashLoc := IndexOfChar(url, '#', nameLoc);
    if ampLoc == -1 && hashLoc == -1 then url[valLoc..]
    else if ampLoc != -1 then
      if hashLoc != -1 && hashLoc < ampLoc then Substr(url, valLoc, hashLoc - valLoc)
      else Substr(url, valLoc, ampLoc - valLoc)
    else Substr(url, valLoc, hashLoc - valLoc)
  }

  /** The cut `ValueFrom` makes, stated against the first delimiter `e` at or after `nameLoc`. */
  lemma ValueFromEndsAtDelimiter(url: string, nameLoc: nat, valLoc: nat, e: nat)
    requires nameLoc <= valLoc <= |url|
    requires ValueEndsAt(url, nameLoc, e)
    ensures ValueFrom(url, nameLoc, valLoc) == if valLoc <= e then url[valLoc..e] else ""
  {
    var amp := IndexOfChar(url, '&', nameLoc);
    var hash := IndexOfChar(url, '#', nameLoc);
    if e == |url| {
      assert amp == -1 && hash == -1;
    } else if url[e] == '&' {
      assert amp == e && (hash == -1 || hash > e);
    } else {
      assert hash == e && (amp == -1 || amp > e);
    }
  }

  /** The exact value: with `n` the first occurrence of `name=` and `e` the first delimiter at
      or after `n`, the result is the text between the `=` and `e`, and empty when the
      delimiter lies inside the name itself. */
  lemma {:induction false} QueryValueFound(url: string, name: string, n: nat, e: nat)
    requires IsFirstOccurrenceFrom(url, name + "=", 0, n)
    requires ValueEndsAt(url, n, e)
    ensures QueryValue(url, name) == if n + |name| + 1 <= e then url[n + |name| + 1..e] else ""
  {
    ScanStartsAtFirstKey(url, name, n);
    ValueFromEndsAtDelimiter(url, n, n + |name| + 1, e);
  }

  /** `queryValue` cuts its value at the first occurrence of `name=`. */
  lemma ScanStartsAtFirstKey(url: string, name: string, n: nat)
    requires IsFirstOccurrenceFrom(url, name + "=", 0, n)
    ensures n + |name| + 1 <= |url|
    ensures QueryValue(url, name) == ValueFrom(url, n, n + |name| + 1)
  {
    assert OccursAt(url, name + "=", n);
    IndexOfFindsFirst(url, name + "=", 0, n);
    var nameLoc := IndexOf(url, name + "=", 0);
    assert nameLoc == n;
  }

  /** The first delimiter at or after `from`, or the end of `s`. */
  function ValueEnd(s: string, from: nat): (e: nat)
    requires from <= |s|
    ensures ValueEndsAt(s, from, e)
    decreases |s| - from
  {
    if from == |s| || IsDelimiter(s[from]) then from else ValueEnd(s, from + 1)
  }

  /** The `name=` text itself holds no delimiter when `name` holds none, so the value's end
      lies after the `=`. */
  lemma KeyHasNoDelimiter(url: string, name: string, n: nat)
    requires FreeOfDelimiters(name)
    requires OccursAt(url, name + "=", n)
    ensures ValueEndsAt(url, n, ValueEnd(url, n + |name| + 1))
  {
    forall j | n <= j < n + |name| + 1
      ensures !IsDelimiter(url[j])
    {
      assert url[j] == (name + "=")[j - n];
      if j < n + |name| {
        assert url[j] == name[j - n];
      }
    }
  }

  /** When the value's end lies past the `=`, the result is the slice between them. */
  lemma QueryValueSlice(url: string, name: string, n: nat, e: nat)
    requires IsFirstOccurrenceFrom(url, name + "=", 0, n)
    requires ValueEndsAt(url, n, e)
    requires n + |name| + 1 <= e
    ensures QueryValue(url, name) == url[n + |name| + 1..e]
  {
    QueryValueFound(url, name, n, e);
  }

  /** `v` is the run of `s` from `start`: the slice there, free of delimiters, and followed by a
      delimiter or the end. */
  predicate IsRunAt(s: string, start: int, v: string)
  {
    ValueEndsAt(s, start, start + |v|) && s[start..start + |v|] == v && FreeOfDelimiters(v)
  }

  /** For a name without `&` or `#`, the value runs from just after the first `name=` to the
      first delimiter after the `=`, or the end. */
  lemma CleanKeyValue(url: string, name: string, n: nat)
    requires FreeOfDelimiters(name)
    requires IsFirstOccurrenceFrom(url, name + "=", 0, n)
    ensures QueryValue(url, name) == url[n + |name| + 1..ValueEnd(url, n + |name| + 1)]
  {
    KeyHasNoDelimiter(url, name, n);
    QueryValueSlice(url, name, n, ValueEnd(url, n + |name| + 1));
  }

  /** For a name without `&` or `#`, the value is the contiguous, delimiter-free run of `url`
      that starts just after the first `name=` and stops at a delimiter or the end. */
  lemma {:induction false} QueryValueIsRun(url: string, name: string, n: nat)
    requires FreeOfDelimiters(name)
    requires IsFirstOccurrenceFrom(url, name + "=", 0, n)
    ensures IsRunAt(url, n + |name| + 1, QueryValue(url, name))
  {
    CleanKeyValue(url, name, n);
    RunIsClean(url, n + |name| + 1, ValueEnd(url, n + |name| + 1), QueryValue(url, name));
  }

  /** The text `v` from `start` up to a value end is free of delimiters and is followed by one
      or by the end of the string. */
  lemma RunIsClean(s: string, start: nat, e: nat, v: string)
    requires ValueEndsAt(s, start, e)
    requires v == s[start..e]
    ensures IsRunAt(s, start, v)
  {
    forall i | 0 <= i < |v|
      ensures !IsDelimiter(v[i])
    {
      assert v[i] == s[start + i];
    }
  }

  /** Because the delimiter search starts at the name rather than after the `=`, a name that
      itself holds `&` or `#` always reads back as empty. */
  lemma {:induction false} DelimiterInNameGivesEmpty(url: string, name: string, n: nat, k: nat)
    requires IsFirstOccurrenceFrom(url, name + "=", 0, n)
    requires k < |name| && IsDelimiter(name[k])
    ensures QueryValue(url, name) == ""
  {
    assert url[n + k] == (name + "=")[k];
    var e := ValueEnd(url, n);
    assert e <= n + k;
    QueryValueFound(url, name, n, e);
  }

  /** Reading back a parameter that was written as `prefix + name + "=" + value + rest`: when
      `name=` does not already occur earlier, name and value hold no delimiter, and `rest` starts
      with one (or is empty), `queryValue` returns exactly `value`. */
  lemma {:induction false} ReadBack(prefix: string, name: string, value: string, rest: string)
    requires !Contains(prefix + name, name + "=")
    requires FreeOfDelimiters(name) && FreeOfDelimiters(value)
    requires rest == "" || IsDelimiter(rest[0])
    ensures QueryValue(prefix + name + "=" + value + rest, name) == value
  {
    var url := prefix + name + "=" + value + rest;
    var n := |prefix|;
    var start := n + |name| + 1;
    var e := start + |value|;
    assert url[n..start] == name + "=";
    forall j | 0 <= j < n
      ensures !OccursAt(url, name + "=", j)
    {
      assert j + |name| + 1 <= |prefix + name|;
      assert (prefix + name)[j..j + |name| + 1] == url[j..j + |name| + 1];
      assert !OccursAt(prefix + name, name + "=", j);
    }
    assert url[start..e] == value;
    forall j | n <= j < e
      ensures !IsDelimiter(url[j])
    {
      if j < start - 1 {
        assert url[j] == name[j - n];
      } else if j >= start {
        assert url[j] == value[j - start];
      }
    }
    if e < |url| {
      assert url[e] == rest[0];
    }
    QueryValueFound(url, name, n, e);
  }

  /** Without any `=` in `s`, no `name=` can occur in it. */
  lemma NoEqualsNoKey(s: string, name: string)
    requires '=' !in s
    ensures !Contains(s, name + "=")
  {
    forall i | 0 <= i <= |s|
      ensures !OccursAt(s, name + "=", i)
    {
      if i + |name| + 1 <= |s| {
        assert s[i..i + |name| + 1][|name|] == s[i + |name|];
      }
    }
  }

  /** A parameter whose name ends in `name` shadows a later `name=`: the first textual match
      wins, so `ba=1` answers a query for `a`. */
  lemma ShadowedByLongerKey()
    ensures QueryValue("https://x/cb?ba=1&a=2", "a") == "1"
  {
    assert "https://x/cb?b" + "a" == "https://x/cb?ba";
    assert "https://x/cb?b" + "a" + "=" + "1" + "&a=2" == "https://x/cb?ba=1&a=2";
    NoEqualsNoKey("https://x/cb?ba", "a");
    ReadBack("https://x/cb?b", "a", "1", "&a=2");
  }

  /** A `#` before the next `&` ends the value, even though an `&` follows later. */
  lemma HashEndsValue()
    ensures QueryValue("https://x/cb?a=1#frag&z=9", "a") == "1"
    ensures QueryValue("https://x/cb?a=1&b=2", "a") == "1"
    ensures QueryValue("https://x/cb?a=1#b=2", "a") == "1"
  {
    assert "https://x/cb?" + "a" == "https://x/cb?a";
    assert "https://x/cb?" + "a" + "=" + "1" + "#frag&z=9" == "https://x/cb?a=1#frag&z=9";
    assert "https://x/cb?" + "a" + "=" + "1" + "&b=2" == "https://x/cb?a=1&b=2";
    assert "https://x/cb?" + "a" + "=" + "1" + "#b=2" == "https://x/cb?a=1#b=2";
    NoEqualsNoKey("https://x/cb?a", "a");
    ReadBack("https://x/cb?", "a", "1", "#frag&z=9");
    ReadBack("https://x/cb?", "a", "1", "&b=2");
    ReadBack("https://x/cb?", "a", "1", "#b=2");
  }
}

=== FILE: request.dfy ===
/** The two request URLs the widget opens in its popup: the authorization request of section
    4.1.1 of RFC 6749 and the provider's logout address. Both are plain concatenation; no value
    is percent-encoded. */
module RequestUrl {
  import opened JsStrings
  import opened QueryParser
  import opened Config

  function Render(p: Param): string
  {
    p.name + "=" + p.value
  }

  /** The usual query string: the pairs rendered `name=value` and joined with `&`. */
  function JoinQuery(ps: seq<Param>): string
  {
    if |ps| == 0 then ""
    else if |ps| == 1 then Render(ps[0])
    else Render(ps[0]) + "&" + JoinQuery(ps[1..])
  }

  /** The four request parameters in the order the widget writes them, then the extras. */
  function RequestParams(cfg: FlowConfig, nonce: string): seq<Param>
  {
    [ Param(cfg.clientIdName, cfg.clientId),
      Param(cfg.redirectUrlName, cfg.redirectUrl),
      Param(cfg.respTypeName, cfg.responseType),
      Param(cfg.stateName, nonce) ] + cfg.extras
  }

  /** The authorization request: endpoint, one `?`, then the joined request parameters. */
  function AuthorizationUrl(cfg: FlowConfig, nonce: string): string
  {
    cfg.authUrl + "?" + JoinQuery(RequestParams(cfg, nonce))
  }

  /** The logout request: endpoint, `?`, and the redirect address under its logout name. Like
      the authorization URL, it contains the address the logout poller waits for; here it is the
      final text. */
  function LogoutUrl(cfg: FlowConfig): (url: string)
    ensures |cfg.logoutUrl| < |url| && url[..|cfg.logoutUrl| + 1] == cfg.logoutUrl + "?"
    ensures |cfg.redirectUrl| <= |url| && OccursAt(url, cfg.redirectUrl, |url| - |cfg.redirectUrl|)
    ensures Contains(url, cfg.redirectUrl)
  {
    cfg.logoutUrl + "?" + cfg.logoutRedirName + "=" + cfg.redirectUrl
  }

  lemma {:induction false} JoinQuerySnoc(ps: seq<Param>, p: Param)
    requires |ps| > 0
    ensures JoinQuery(ps + [p]) == JoinQuery(ps) + "&" + Render(p)
    decreases |ps|
  {
    if |ps| == 1 {
      assert ps + [p] == [ps[0], p];
      assert (ps + [p])[1..] == [p];
    } else {
      assert (ps + [p])[1..] == ps[1..] + [p];
      JoinQuerySnoc(ps[1..], p);
    }
  }

  lemma {:induction false} JoinQueryAppend(ps: seq<Param>, qs: seq<Param>)
    requires |ps| > 0 && |qs| > 0
    ensures JoinQuery(ps + qs) == JoinQuery(ps) + "&" + JoinQuery(qs)
    decreases |ps|
  {
    if |ps| == 1 {
      assert (ps + qs)[1..] == qs;
    } else {
      assert (ps + qs)[1..] == ps[1..] + qs;
      JoinQueryAppend(ps[1..], qs);
    }
  }

  /** The login loop that accumulates the extra parameters: each one appended as
      `&name=value`, in configured order. */
  method ExtraQuery(extras: seq<Param>) returns (params: string)
    ensures |extras| == 0 ==> params == ""
    ensures |extras| > 0 ==> params == "&" + JoinQuery(extras)
  {
    params := "";
    var i := 0;
    while i < |extras|
      invariant 0 <= i <= |extras|
      invariant i == 0 ==> params == ""
      invariant i > 0 ==> params == "&" + JoinQuery(extras[..i])
    {
      if i > 0 {
        JoinQuerySnoc(extras[..i], extras[i]);
        assert extras[..i + 1] == extras[..i] + [extras[i]];
      } else {
        assert extras[..1] == [extras[0]];
      }
      params := params + "&" + extras[i].name + "=" + extras[i].value;
      i := i + 1;
    }
    assert extras[..i] == extras;
  }

  /** The authorization URL as the login code concatenates it: the parameters come out as
      client id, redirect address, response type, state (the nonce), then the extras in
      configured order, `&`-joined after a single `?`. */
  method BuildAuthorizationUrl(cfg: FlowConfig, nonce: string) returns (url: string)
    ensures url == cfg.authUrl + "?" + JoinQuery(RequestParams(cfg, nonce))
  {
    var params := ExtraQuery(cfg.extras);
    url := cfg.authUrl + "?" + cfg.clientIdName + "=" + cfg.clientId + "&"
         + cfg.redirectUrlName + "=" + cfg.redirectUrl + "&"
         + cfg.respTypeName + "=" + cfg.responseType + "&"
         + cfg.stateName + "=" + nonce + params;
    AuthorizationUrlAroundState(cfg, nonce);
    BeforeStateNameSpelled(cfg);
  }

  /** The text of the authorization URL before the state parameter's name. */
  function BeforeStateName(cfg: FlowConfig): string
  {
    cfg.authUrl + "?" + Render(Param(cfg.clientIdName, cfg.clientId)) + "&"
    + Render(Param(cfg.redirectUrlName, cfg.redirectUrl)) + "&"
    + Render(Param(cfg.respTypeName, cfg.responseType)) + "&"
  }

  /** `BeforeStateName` written out as the login code concatenates it. */
  lemma BeforeStateNameSpelled(cfg: FlowConfig)
    ensures BeforeStateName(cfg)
         == cfg.authUrl + "?" + cfg.clientIdName + "=" + cfg.clientId + "&"
            + cfg.redirectUrlName + "=" + cfg.redirectUrl + "&"
            + cfg.respTypeName + "=" + cfg.responseType + "&"
  {
    ThreePairsSpelled(cfg.authUrl + "?", cfg.clientIdName, cfg.clientId, cfg.redirectUrlName,
                      cfg.redirectUrl, cfg.respTypeName, cfg.responseType);
  }

  lemma ThreePairsSpelled(head: string, n1: string, v1: string, n2: string, v2: string, n3: string, v3: string)
    ensures head + (n1 + "=" + v1) + "&" + (n2 + "=" + v2) + "&" + (n3 + "=" + v3) + "&"
         == head + n1 + "=" + v1 + "&" + n2 + "=" + v2 + "&" + n3 + "=" + v3 + "&"
  {
  }

  /** The text after the state value: the extras, each introduced by `&`. */
  function AfterState(cfg: FlowConfig): string
  {
    if |cfg.extras| == 0 then "" else "&" + JoinQuery(cfg.extras)
  }

  /** The four fixed request pairs, joined. */
  lemma {:induction false} FixedPairsJoined(cfg: FlowConfig, nonce: string)
    ensures JoinQuery(RequestParams(cfg, nonce)[..4])
         == Render(Param(cfg.clientIdName, cfg.clientId)) + "&"
            + Render(Param(cfg.redirectUrlName, cfg.redirectUrl)) + "&"
            + Render(Param(cfg.respTypeName, cfg.responseType)) + "&"
            + Render(Param(cfg.stateName, nonce))
  {
    var fixed := RequestParams(cfg, nonce)[..4];
    assert JoinQuery(fixed[1..][1..][1..]) == Render(Param(cfg.stateName, nonce));
    assert JoinQuery(fixed[1..][1..]) == Render(fixed[2]) + "&" + JoinQuery(fixed[1..][1..][1..]);
    assert JoinQuery(fixed[1..]) == Render(fixed[1]) + "&" + JoinQuery(fixed[1..][1..]);
  }

  /** The joined request parameters: the four fixed pairs, then the extras after an `&`. */
  lemma {:induction false} RequestQuerySplits(cfg: FlowConfig, nonce: string)
    ensures JoinQuery(RequestParams(cfg, nonce)) == JoinQuery(RequestParams(cfg, nonce)[..4]) + AfterState(cfg)
  {
    var ps := RequestParams(cfg, nonce);
    if |cfg.extras| > 0 {
      JoinQueryAppend(ps[..4], cfg.extras);
      assert ps[..4] + cfg.extras == ps;
    } else {
      assert ps[..4] == ps;
    }
  }

  /** Regrouping the concatenation around the state pair. */
  lemma Regroup(url: string, head: string, query: string, a: string, b: string, c: string,
                name: string, value: string, tail: string, before: string)
    requires url == head + query
    requires query == a + "&" + b + "&" + c + "&" + (name + "=" + value) + tail
    requires before == head + a + "&" + b + "&" + c + "&"
    ensures url == before + name + "=" + value + tail
  {
  }

  lemma AuthorizationUrlAroundState(cfg: FlowConfig, nonce: string)
    ensures AuthorizationUrl(cfg, nonce)
         == BeforeStateName(cfg) + cfg.stateName + "=" + nonce + AfterState(cfg)
  {
    FixedPairsJoined(cfg, nonce);
    RequestQuerySplits(cfg, nonce);
    Regroup(AuthorizationUrl(cfg, nonce), cfg.authUrl + "?", JoinQuery(RequestParams(cfg, nonce)),
            Render(Param(cfg.clientIdName, cfg.clientId)),
            Render(Param(cfg.redirectUrlName, cfg.redirectUrl)),
            Render(Param(cfg.respTypeName, cfg.responseType)), cfg.stateName, nonce, AfterState(cfg),
            BeforeStateName(cfg));
  }

  /** The CSRF round trip of section 10.12 of RFC 6749, on the request side: reading the state
      parameter back from the authorization URL yields the nonce, provided the state name and the
      nonce hold no `&` or `#` and `stateName=` does not already occur earlier in the URL. */
  lemma {:induction false} StateReadBack(cfg: FlowConfig, nonce: string)
    requires FreeOfDelimiters(cfg.stateName) && FreeOfDelimiters(nonce)
    requires !Contains(BeforeStateName(cfg) + cfg.stateName, cfg.stateName + "=")
    ensures QueryValue(AuthorizationUrl(cfg, nonce), cfg.stateName) == nonce
  {
    AuthorizationUrlAroundState(cfg, nonce);
    ReadBack(BeforeStateName(cfg), cfg.stateName, nonce, AfterState(cfg));
  }

  /** Because nothing is encoded, the authorization URL itself contains the redirect address,
      the very text the poller waits for: a probe that could read this URL would match at once.
      The flow relies on the provider's page being on another origin. */
  lemma AuthorizationUrlMentionsRedirect(cfg: FlowConfig, nonce: string)
    ensures Contains(AuthorizationUrl(cfg, nonce), cfg.redirectUrl)
  {
    AuthorizationUrlAroundState(cfg, nonce);
    var head := cfg.authUrl + "?" + Render(Param(cfg.clientIdName, cfg.clientId)) + "&" + cfg.redirectUrlName + "=";
    SecondValueOccurs(AuthorizationUrl(cfg, nonce), BeforeStateName(cfg), cfg.authUrl + "?",
                      Render(Param(cfg.clientIdName, cfg.clientId)), cfg.redirectUrlName, cfg.redirectUrl,
                      Render(Param(cfg.respTypeName, cfg.responseType)),
                      cfg.stateName + "=" + nonce + AfterState(cfg));
    assert OccursAt(AuthorizationUrl(cfg, nonce), cfg.redirectUrl, |head|);
  }

  /** In `head + a & name=value & c & rest`, `value` occurs right after `head + a & name=`. */
  lemma SecondValueOccurs(url: string, before: string, head: string, a: string, name: string,
                          value: string, c: string, rest: string)
    requires before == head + a + "&" + (name + "=" + value) + "&" + c + "&"
    requires url == before + rest
    ensures OccursAt(url, value, |head + a + "&" + name + "="|)
  {
    var k := |head + a + "&" + name + "="|;
    assert url == (head + a + "&" + name + "=") + value + ("&" + c + "&" + rest);
    assert url[k..k + |value|] == value;
  }

  /** Reading the logout redirect parameter back from the logout URL yields the redirect
      address, under the same conditions as the state round trip. */
  lemma LogoutReadBack(cfg: FlowConfig)
    requires FreeOfDelimiters(cfg.logoutRedirName) && FreeOfDelimiters(cfg.redirectUrl)
    requires !Contains(cfg.logoutUrl + "?" + cfg.logoutRedirName, cfg.logoutRedirName + "=")
    ensures QueryValue(LogoutUrl(cfg), cfg.logoutRedirName) == cfg.redirectUrl
  {
    assert LogoutUrl(cfg) == (cfg.logoutUrl + "?") + cfg.logoutRedirName + "=" + cfg.redirectUrl + "";
    ReadBack(cfg.logoutUrl + "?", cfg.logoutRedirName, cfg.redirectUrl, "");
  }
}
